=== FILE: README.md ===
# openblok well engine, in Dafny

A model of the core of openblok, a falling-block puzzle game. It covers three pieces:

- **The well** (`Well`): the playfield engine. It has a fixed 22 × 10 grid of optional minos. It has an optional active piece with a column offset, a row offset and a derived ghost row. The model also covers gravity steps, locking a piece, line-clear detection, the delay before cleared rows are removed, the autorepeat (DAS) counters, the ASCII form of the grid, and per-event observer lists.
- **The timed transition** (`Transition<T>`): a value generator with a fixed duration. It evaluates its function once per update, clamps at completion, fires its completion callback exactly once and then stops.
- **The single-player host** (`SinglePlayState`): the pause toggle in its frame update, and the two observer reactions it registers on the well. One supplies the next piece. The other performs a hold swap.

All state is immutable. Each operation is a pure function from one state to the next. Time is counted in whole ticks. Wherever the C++ code calls back into client code, the model returns a log instead:

- a transition returns the calls it made: `Eval(t)` for each evaluation of the value function, and `OnEnd` for the completion callback;
- a well operation returns the events it fired (`NEXT_REQUESTED`, `HOLD_REQUESTED`, line clear, game over). `Wells.Notify` gives the callbacks those events reach, in registration order;
- the host's reactions to well events are explicit functions (`OnNextRequested`, `OnHoldRequested`). They return the events that their own board calls fire.

Piece shapes come from outside the model. A piece is a type plus a non-empty list of cell offsets inside its bounding box, and the host holds a table from piece type to spawn shape. The piece queue is an endless stream of types. The holder is an optional held type plus a `swapAllowed` flag.

Modules:

- `Common`: `Option`, `Result` and `Sum`.
- `Transitions`: the transition.
- `Playfield`: the grid, collision, ghost row, placing a piece, full rows and row removal.
- `Ascii`: the text form of the grid.
- `Autorepeat`: the DAS counters.
- `Observers`: the per-event lists.
- `Wells`: the engine state, its invariant `Valid` and its operations.
- `SinglePlay`: the host.

Where the header's comments leave behaviour open, the model makes these choices:

- **Calls in the wrong state are silent no-ops.** `AddPiece` acts only when there is no active piece, no pending clear and no game over. `DeletePiece` acts only when there is an active piece.
- **A deleted piece is requested on the next tick, not at once.** `DeletePiece` only removes the active piece, as "a new one will be requested eventually" says. The next `Tick` of a well awaiting a piece fires the next-piece request. So the host's hold handler, which deletes a piece and may add one itself, does not also pull a piece from the queue.
- **Input is handled only while a piece is active.** Movement keys and the hold key do nothing during a line clear or after game over.
- **An update that completes a transition evaluates at t = 1 and then fires the completion callback.** The tests fix that both happen in that update, not their order.
- **A new piece spawns at column 3, row 0.** If that placement collides, the game is over and no piece is installed.
- **A gravity step that would collide locks the piece at once.** There is no lock delay.
- **The autorepeat counters work as follows.** A press fires at once and loads the countdown with the current rate. A held key fires when its countdown runs out and then reloads it. The rate switches to turbo once the key has been held for `autorepeat_delay`. A release resets autorepeat and the countdown.
- **Text format:**
  - `.` is an empty cell;
  - a lower-case letter (`ijlostz`) is a locked mino of that piece type;
  - an upper-case letter is a mino of the active piece;
  - every row ends with a newline.

  The C++ `fromAscii` returns `void`. The model's `Wells.FromAscii` returns a `Result` as its own signal that loading was refused, and a refused load leaves the well as it was. It rejects text of the wrong length and text with a misplaced character. Upper-case letters count as misplaced: they mark the active piece, which loading does not restore. So only the text of a well without an active piece loads back. On success loading clears the active piece, any pending clear and game over, and resets the gravity and input timers. The configuration, the line-clear fade and the observers are kept.
- **Events carry no data.** The well's observers are `std::function<void()>`, so a line-clear event does not carry the count or positions of the cleared rows. The model follows the code here.

`activePiece()` is the well's `active` field. It is `None` when the C++ code returns a null pointer.

## Model

| member | source | states |
|---|---|---|
| Transitions.Create | tests/test_Transition.cpp:20-25 | construction evaluates the function once, at t = 0, and the transition is running |
| Transitions.Update | tests/test_Transition.cpp:27-36 | a running transition evaluates once per update. The update that reaches the duration evaluates at t = 1, fires the completion callback and stops (the model's choice puts the callback last). A stopped transition ignores updates |
| Transitions.Stop | tests/test_Transition.cpp:103-115 | stopping makes `running()` false without evaluating the function or calling the completion callback |
| Transitions.Restart | tests/test_Transition.cpp:117-119 | restarting rewinds to t = 0, evaluates there, and runs again |
| Transitions.ReplaceFn | tests/test_Transition.cpp:122-129 | the new function is installed and evaluated at once, at the current progress. The duration, timer and running state are kept |
| Transitions.InertAfterStop | tests/test_Transition.cpp:32-36 | after completion or a stop, any sequence of updates makes no call and changes nothing |
| Transitions.EndFiresOnce | tests/test_Transition.cpp:80-101 | over any run of updates, the completion callback fires exactly once if the total time reaches the duration and never otherwise. The transition stops exactly then |
| Transitions.OneEvalPerUpdate | tests/test_Transition.cpp:58-78 | a run of n updates evaluates the function at most n times |
| Transitions.ThreeStepsScenario | tests/test_Transition.cpp:58-101 | with duration 3, function round(3t) and steps of 1, the values are 0, 1, 2, 3. The callback fires only on the third step, and a fourth step does nothing |
| Transitions.StopRestartScenario | tests/test_Transition.cpp:103-120 | stop makes no call; a following restart evaluates at 0 and runs |
| Playfield.HasCollisionAt | src/game/components/Well.h:102-104 | the collision test is true exactly when some mino, shifted by the offsets, is outside the 22 × 10 grid or on an occupied cell |
| Playfield.FreePlacementInBounds | src/game/components/Well.h:70-78 | a non-colliding placement has its row offset inside the grid, and every cell it covers is in bounds and empty |
| Playfield.GhostRow | src/game/components/Well.h:102-103 | the ghost row is at or below the piece's row. Every row from the piece down to it is free, the row below it collides, and it lies within the grid |
| Playfield.GhostRowUnique | src/game/components/Well.h:77 | at most one row satisfies the ghost-row definition, so the ghost row is determined |
| Playfield.GhostStableUnderFall | src/game/components/Well.h:36-37 | falling one free row does not move the ghost row |
| Playfield.PlaceKeepsOwnership | src/game/components/Well.h:105 | locking a non-colliding piece keeps every occupied cell's owner. Each cell the piece covers was empty and now holds the piece's type |
| Playfield.CheckLineclear | src/game/components/Well.h:116-118 | the line-clear scan returns each row whose 10 cells are all occupied, once, and no other index |
| Playfield.RemoveRows | src/game/components/Well.h:117 | removing k in-range rows leaves the top k rows empty |
| Playfield.RemoveRowsShift | src/game/components/Well.h:115-118 | every kept row moves down by exactly the number of removed rows below it and keeps its contents |
| Playfield.NoFullRowsAfterClear | src/game/components/Well.h:116-117 | after the full rows are removed, no row is full |
| Ascii.AsAscii | src/game/components/Well.h:55-57 | the text has 22 lines of 10 cell characters plus a newline. Each character shows the active piece where it covers the cell, and the grid cell elsewhere |
| Ascii.FromAscii | src/game/components/Well.h:58-59 | text is rejected as of the wrong length exactly when its length is wrong; a rejection of text of the right length names a misplaced character. Any other text is accepted exactly when every position holds a cell character or a line-ending newline, and each cell of the result is the one its character denotes |
| Ascii.AsciiRoundTrip | src/game/components/Well.h:55-59 | parsing the text of a grid without an active piece gives back that grid |
| Ascii.AsciiParseRender | src/game/components/Well.h:55-59 | any text that parses is exactly the text of the grid it parses to |
| Autorepeat.ResetAutorepeat | src/game/components/Well.h:99 | resetting autorepeat restores the normal rate and clears the hold timer; the countdown is kept |
| Autorepeat.Step | src/game/components/Well.h:92-98 | the current rate stays the normal or the turbo rate. A held key fires exactly when its countdown runs out, and the countdown then becomes the current rate. Turbo is reached once the hold time reaches the delay and is kept while the key is held. A press fires at once. A release returns to the initial state |
| Autorepeat.NoRepeatBeforeCountdown | src/game/components/Well.h:98 | while the held time is shorter than the countdown, no repeat fires and the countdown decreases by that time |
| Autorepeat.TurboAfterDelay | src/game/components/Well.h:93-96 | a key held until the hold timer reaches the autorepeat delay is at the turbo rate |
| Autorepeat.TurboOnlyAfterDelay | src/game/components/Well.h:96-97 | the turbo rate is only reached after the hold timer has reached the autorepeat delay |
| Autorepeat.ShortPressMovesOnce | src/game/components/Well.h:92-98 | a press followed by a hold shorter than the normal rate fires exactly once |
| Observers.Register | src/game/components/Well.h:50-53 | registration appends to the list of that event only; every other event's list is unchanged |
| Observers.RegistrationOrder | src/game/components/Well.h:121-123 | callbacks registered for an event fire in registration order, after the earlier ones; other events' lists are unchanged |
| Wells.Init | src/game/components/Well.h:30-31 | a new well carries the given configuration and has an empty grid, no piece, no pending clear, no game over, no observers, a zero gravity timer and initial autorepeat counters. Its line-clear fade is a fresh transition over the configured duration and function. It satisfies the invariant, which keeps the fade's duration and function equal to the configured ones |
| Wells.AddPiece | src/game/components/Well.h:39-40 | in the awaiting state, a piece that fits is placed at the spawn position with its ghost row and no event. A piece that does not fit ends the game and fires game over. Otherwise nothing changes. Only the active piece and the game-over flag ever change |
| Wells.DeletePiece | src/game/components/Well.h:41-42 | afterwards there is no active piece and nothing else has changed. No event fires: a deleted piece leaves the well awaiting a new one |
| Wells.DeleteThenTickRequests | src/game/components/Well.h:41-42 | the replacement for a deleted piece is requested eventually: the following tick fires exactly one next-piece request and changes nothing |
| Wells.Shift | src/game/components/Well.h:107-110 | a move to a free placement changes only the piece's offsets and its ghost; a move that collides changes nothing |
| Wells.ApplyGravity | src/game/components/Well.h:36-37 | the active piece moves down exactly one row when that does not collide, with its ghost row unchanged; otherwise the well is unchanged |
| Wells.LockAndReleasePiece | src/game/components/Well.h:105 | the piece's minos are written into the grid without overwriting any mino, and the piece is released. Pending rows become the full rows. With none, a next-piece request fires and the fade is untouched; with some, no event fires and the clear fade restarts. Nothing else in the well changes |
| Wells.HardDrop | src/game/components/Well.h:111 | the piece is locked at its ghost row and released. Pending rows become the full rows of the new grid. With none, a next-piece request fires; with some, the clear fade restarts. Nothing else in the well changes |
| Wells.HandleMoveKey | src/game/components/Well.h:86-100 | without an active piece (during a clear, after game over) the well is unchanged. Otherwise the autorepeat state advances, and when it fires the piece tries one step in the key's direction. Nothing else changes. The grid never changes |
| Wells.PressMovesOnce | src/game/components/Well.h:92-98 | the press of a movement key moves the piece exactly one step when the target is free |
| Wells.RequestHold | src/game/components/Well.h:86-90 | the hold key fires a hold request exactly on its press edge while a piece is active. Holding or releasing it fires nothing. At most one event fires and the well is unchanged |
| Wells.HoldFiresOncePerPress | src/game/components/Well.h:86-90 | over any run of hold-key frames with an active piece, the number of hold requests equals the number of presses |
| Wells.Tick | src/game/components/Well.h:80-84 | after game over nothing changes. During a clear only the fade changes, advanced by one transition update of the elapsed time. When that update completes the fade, the pending rows are removed and a line clear and a next-piece request fire. A well awaiting a piece requests one. With an active piece the gravity timer accumulates. Below the period nothing else changes. At the period one period is consumed and the piece falls one row, or locks where it is if the row below collides. The invariant is kept |
| Wells.ClearStep | src/game/components/Well.h:115-119 | the fade is advanced by one transition update of the elapsed time. While it still runs, only the fade changes. When it completes, the pending rows are removed, and a line clear and a next-piece request fire |
| Wells.GravityStep | src/game/components/Well.h:80-84 | below the gravity period only the timer changes. At the period one period is consumed and the piece falls one free row, or is locked and released where it is |
| Wells.ClearLeavesNoFullRow | src/game/components/Well.h:115-119 | a completed line clear leaves no full row |
| Wells.ClearShiftsRows | src/game/components/Well.h:115-119 | on completion of a clear, each row that was not cleared moves down by the number of cleared rows below it, with its contents |
| Wells.GameOverIsFinal | src/game/components/Well.h:67-68 | once the game is over, no sequence of ticks changes the well or fires an event |
| Wells.GameOverIgnoresInput | src/game/components/Well.h:67-68 | once the game is over, movement keys, the hold key and new pieces change nothing and fire nothing |
| Wells.OffsetsFitBytes | src/game/components/Well.h:74-77 | an active piece's column offset lies in [-3, 10), and its row offset and ghost row lie in [0, 22) with the row at or above the ghost. All fit their byte-wide fields |
| Wells.RegisterObserver | src/game/components/Well.h:49-53 | the observer is appended to its event's list only; nothing else in the well changes |
| Wells.Notify | src/game/components/Well.h:121-123 | a fired event reaches exactly its registered callbacks, in order |
| Wells.AsAscii | src/game/components/Well.h:55-57 | without an active piece, every cell's character decodes to that grid cell |
| Wells.FromAscii | src/game/components/Well.h:58-59 | loading succeeds exactly for well-formed text and yields a valid, awaiting well holding the parsed grid, with the gravity timer and autorepeat counters reset. The configuration, fade and observers are kept. On failure the parse error is reported |
| Wells.AsciiRoundTrip | src/game/components/Well.h:55-59 | loading the text of a well without an active piece restores its grid |
| SinglePlay.PausePressedSpec | src/game/states/SinglePlayState.cpp:44-45 | the frame holds a pause press exactly when some input is a pause going down |
| SinglePlay.Update | src/game/states/SinglePlayState.cpp:42-56 | a pause press toggles pause once, and that frame neither the board nor the holder is updated. While paused nothing changes. Otherwise the board is updated, then the holder, and nothing else in the session changes |
| SinglePlay.PausedFramesInert | src/game/states/SinglePlayState.cpp:51-52 | while paused, frames without a pause press change nothing |
| SinglePlay.PauseTwiceRestores | src/game/states/SinglePlayState.cpp:44-47 | two frames with pause presses return the session to its original state |
| SinglePlay.OnNextRequested | src/game/states/SinglePlayState.cpp:24-27 | the next queued type, and only it, is added to the board. The queue advances by one, and the holder starts a new turn with its held piece unchanged |
| SinglePlay.OnHoldRequested | src/game/states/SinglePlayState.cpp:29-39 | without swap permission nothing changes. Otherwise the active piece is deleted and its type becomes the held type. An empty holder adds no piece; an occupied one has its former type added to the board. The queue is untouched, and the only event the reaction can fire is game over |
| SinglePlay.HoldOncePerTurn | src/game/states/SinglePlayState.cpp:30-31 | a second hold in the same turn changes nothing |
| SinglePlay.DeliverIgnoresGameOver | src/game/states/SinglePlayState.cpp:24-39 | the host registers no game-over observer, so delivering game-over events changes nothing |
| SinglePlay.HoldThenDeliver | src/game/states/SinglePlayState.cpp:29-39 | a hold swap, followed by delivery of the events it fired, takes nothing from the queue and leaves no second swap allowed this turn |
| SinglePlay.HoldKeyReachesHost | src/game/states/SinglePlayState.cpp:29-39 | delivering the hold key's events performs the hold reaction exactly on a press while a piece is active, and otherwise leaves the session unchanged |
| SinglePlay.HoldTwiceSwapsBack | src/game/states/SinglePlayState.cpp:29-38 | hold, a new turn, and hold again restore both the board's piece type and the held type |

## Left out

- Drawing and asset loading (`Well::draw`, `SinglePlayState::draw`, the texture and text setup in the host's constructor) are left out, since they are rendering only.
- `src/system/Window.h` and `src/game/states/substates/ingame/Gameplay.h` are left out: they hold platform I/O and audio/texture declarations, with no logic.
- Input merging (`updateKeystate`, `keystates`, `previous_keystates`) is left out. The model takes per-frame key levels (released, pressed, held) directly.
- Rotation (`rotateCWNow`, `rotateCCWNow`) is left out: it needs the rotation and wall-kick tables, which are not part of this model.
- `skip_gravity` is left out: its use is not visible in the header.
- `resetInput` is modelled only through its autorepeat part (`Autorepeat.Initial`, used by `Wells.FromAscii`).
- `Well::update` as a whole is not modelled as one function. Its parts are `Wells.HandleMoveKey`, `Wells.RequestHold` and `Wells.Tick`.
- The line-clear fade's alpha function and the gravity and autorepeat durations are parameters (`Wells.Config`). Their values are not part of this model.
- The piece shape tables, the `PieceQueue` randomiser and the `PieceHolder` internals are not part of this model. Shapes are a table parameter and the queue is a stream parameter. For the holder, `onSwapRequested` is treated as a no-op, `update` is a parameter of `SinglePlay.Update`, and `onNextTurn` is assumed to re-allow a swap.
- The `PieceHolder` behaviour that the host relies on is assumed, not modelled from its code: `isEmpty()` means no piece is held, `swapWithEmpty(t)` and `swapWith(t)` both leave `t` held and forbid a further swap until `onNextTurn`, and `swapWith(t)` returns the type held before. `SinglePlay.HoldOncePerTurn`, `SinglePlay.HoldThenDeliver` and `SinglePlay.HoldTwiceSwapsBack` hold under these assumptions.
- `SinglePlay.Update` does not model what the board and holder updates do inside a frame. They are function parameters; the model states only when and in which order they are called.
- Reentrant delivery is not modelled: a host callback calling back into the well while `notify` is still running. `SinglePlay.Deliver` hands a list of events to the host's handlers one after another. The events that a handler's own board calls fire are returned to the caller, and those can only be game over, which the host does not observe.
- `std::chrono` durations and `double` progress are not modelled. Time is whole ticks, and progress is an exact rational in [0, 1].
- Transitions.Round: rounds halves upward, like `std::round` on the non-negative arguments the tests use; negative arguments are not modelled.
- Transitions.Create: a zero duration is excluded by the `Duration` type, because progress is elapsed / duration.
- The `int8_t`/`uint8_t` fields of the piece offsets and ghost row are plain integers in the model. Mino offsets lie inside the 4 × 4 bounding box (`Playfield.BoxIndex`), and `Wells.OffsetsFitBytes` shows that valid placements keep the offsets within their byte ranges.

=== FILE: ascii.dfy ===
/**
 The well's text form, used for fixtures and debugging: 22 lines of 10
 characters, top row first, each line ended by a newline. An empty cell is
 '.', a locked mino is its piece type's lower-case letter, and a mino of the
 active piece is drawn over the grid as the upper-case letter.
 */
module Ascii {
  import opened Common
  import opened Playfield

  const LineWidth: nat := Cols + 1
  const TextLength: nat := Rows * LineWidth

  /** Position of cell (r, c) in the text. */
  function Index(r: nat, c: nat): nat {
    r * LineWidth + c
  }

  lemma IndexSplit(r: nat, c: nat)
    requires c < LineWidth
    ensures Index(r, c) / LineWidth == r && Index(r, c) % LineWidth == c
  {
  }

  lemma IndexOf(i: nat)
    ensures Index(i / LineWidth, i % LineWidth) == i
  {
  }

  function LockedChar(k: PieceType): char {
    match k
    case I => 'i' case J => 'j' case L => 'l' case O => 'o'
    case S => 's' case T => 't' case Z => 'z'
  }

  function ActiveChar(k: PieceType): char {
    match k
    case I => 'I' case J => 'J' case L => 'L' case O => 'O'
    case S => 'S' case T => 'T' case Z => 'Z'
  }

  /** Reads one grid character: None for a character that does not denote a cell. */
  function DecodeCell(ch: char): (r: Option<Cell>)
    ensures r == Some(None) <==> ch == '.'
  {
    match ch
    case '.' => Some(None)
    case 'i' => Some(Some(I)) case 'j' => Some(Some(J)) case 'l' => Some(Some(L))
    case 'o' => Some(Some(O)) case 's' => Some(Some(S)) case 't' => Some(Some(T))
    case 'z' => Some(Some(Z))
    case _ => None
  }

  function EncodeCell(cell: Cell): char {
    match cell
    case None => '.'
    case Some(k) => LockedChar(k)
  }

  /** Encoding and decoding a cell are inverse to each other. */
  lemma CellRoundTrip(cell: Cell, ch: char)
    ensures DecodeCell(EncodeCell(cell)) == Some(cell)
    ensures DecodeCell(ch) == Some(cell) ==> EncodeCell(cell) == ch
  {
  }

  /** The character shown for cell (r, c): the active piece covers the grid. */
  function CellChar(g: Grid, a: Option<ActivePiece>, r: nat, c: nat): char
    requires r < Rows && c < Cols
  {
    if a.Some? && Covers(a.value.piece, a.value.x, a.value.y, r, c) then ActiveChar(a.value.piece.kind)
    else EncodeCell(g[r][c])
  }

  /** The well's string representation. */
  function AsAscii(g: Grid, a: Option<ActivePiece>): (s: string)
    ensures |s| == TextLength
    ensures forall r, c :: 0 <= r < Rows && 0 <= c < Cols ==> s[Index(r, c)] == CellChar(g, a, r, c)
    ensures forall r :: 0 <= r < Rows ==> s[Index(r, Cols)] == '\n'
  {
    var s := seq(TextLength, i requires 0 <= i < TextLength =>
      if i % LineWidth == Cols then '\n' else CellChar(g, a, i / LineWidth, i % LineWidth));
    forall r, c | 0 <= r < Rows && 0 <= c <= Cols
      ensures s[Index(r, c)] == if c == Cols then '\n' else CellChar(g, a, r, c)
    {
      IndexSplit(r, c);
    }
    s
  }

  datatype AsciiError = WrongLength(length: nat) | BadSymbol(index: nat)

  /** Position i of a text holds what belongs there: a newline at line ends, a cell elsewhere. */
  predicate SymbolOk(s: string, i: nat)
    requires i < |s|
  {
    if i % LineWidth == Cols then s[i] == '\n' else DecodeCell(s[i]).Some?
  }

  /** The first position at or after i whose symbol is wrong, if any. */
  function FirstBad(s: string, i: nat): (r: Option<nat>)
    requires i <= |s|
    ensures r.None? ==> forall j :: i <= j < |s| ==> SymbolOk(s, j)
    ensures r.Some? ==> (i <= r.value < |s| && !SymbolOk(s, r.value) &&
      forall j :: i <= j < r.value ==> SymbolOk(s, j))
    decreases |s| - i
  {
    if i == |s| then None
    else if !SymbolOk(s, i) then Some(i)
    else FirstBad(s, i + 1)
  }

  /**
   Parses the grid from its text. A text of the wrong length, or with a
   character out of place, is rejected rather than partially loaded.
   */
  function FromAscii(s: string): (r: Result<Grid, AsciiError>)
    ensures r == Failure(WrongLength(|s|)) <==> |s| != TextLength
    ensures r.Failure? ==> (r.error.WrongLength? <==> |s| != TextLength)
    ensures r.Failure? && r.error.BadSymbol? ==> r.error.index < |s| && !SymbolOk(s, r.error.index)
    ensures r.Success? <==> |s| == TextLength && forall i :: 0 <= i < |s| ==> SymbolOk(s, i)
    ensures r.Success? ==> forall row, c :: 0 <= row < Rows && 0 <= c < Cols ==>
      DecodeCell(s[Index(row, c)]) == Some(r.value[row][c])
  {
    if |s| != TextLength then Failure(WrongLength(|s|))
    else match FirstBad(s, 0)
      case Some(i) => Failure(BadSymbol(i))
      case None =>
        var g := seq(Rows, row requires 0 <= row < Rows =>
          seq(Cols, c requires 0 <= c < Cols =>
            IndexSplit(row, c);
            assert SymbolOk(s, Index(row, c));
            DecodeCell(s[Index(row, c)]).value));
        assert forall row, c :: 0 <= row < Rows && 0 <= c < Cols ==>
          SymbolOk(s, Index(row, c)) && DecodeCell(s[Index(row, c)]) == Some(g[row][c]) by {
          forall row, c | 0 <= row < Rows && 0 <= c < Cols
            ensures SymbolOk(s, Index(row, c)) && DecodeCell(s[Index(row, c)]) == Some(g[row][c])
          {
            IndexSplit(row, c);
          }
        }
        Success(g)
  }

  /** Rendering a grid without an active piece and parsing it back gives the same grid. */
  lemma AsciiRoundTrip(g: Grid)
    ensures FromAscii(AsAscii(g, None)) == Success(g)
  {
    var s := AsAscii(g, None);
    forall i | 0 <= i < |s|
      ensures SymbolOk(s, i)
    {
      IndexOf(i);
      IndexSplit(i / LineWidth, i % LineWidth);
      if i % LineWidth != Cols {
        CellRoundTrip(g[i / LineWidth][i % LineWidth], s[i]);
      }
    }
    var r := FromAscii(s);
    assert r.Success?;
    forall row | 0 <= row < Rows
      ensures r.value[row] == g[row]
    {
      forall c | 0 <= c < Cols
        ensures r.value[row][c] == g[row][c]
      {
        assert s[Index(row, c)] == EncodeCell(g[row][c]);
        CellRoundTrip(g[row][c], s[Index(row, c)]);
      }
      assert |r.value[row]| == |g[row]|;
    }
    assert |r.value| == |g|;
    assert r.value == g;
  }

  /** A text that parses is exactly the rendering of the grid it parses to. */
  lemma AsciiParseRender(s: string)
    requires FromAscii(s).Success?
    ensures AsAscii(FromAscii(s).value, None) == s
  {
    var g := FromAscii(s).value;
    var t := AsAscii(g, None);
    forall i | 0 <= i < |s|
      ensures t[i] == s[i]
    {
      IndexOf(i);
      IndexSplit(i / LineWidth, i % LineWidth);
      assert SymbolOk(s, i);
      if i % LineWidth != Cols {
        CellRoundTrip(g[i / LineWidth][i % LineWidth], s[i]);
      }
    }
  }
}

=== FILE: autorepeat.dfy ===
/**
 The autorepeat (DAS) counter machine of the well. A movement key fires at
 once when pressed; while it is held, a countdown gates repeats, reloading
 with the current rate each time it fires. The rate is the normal one until
 the key has been held for the autorepeat delay, and the turbo one after.
 Releasing the key turns autorepeat off.
 */
module Autorepeat {
  import opened Common

  datatype Config = Config(
    delay: nat,        // how long a key must be held before turbo mode starts
    normalRate: nat,
    turboRate: nat)

  datatype State = State(
    timer: nat,        // how long the key has been held
    rateNow: nat,      // the rate a repeat reloads the countdown with
    countdown: nat)    // input is allowed when it reaches zero

  /** The logical level of a movement key in one frame. */
  datatype KeyLevel = Released | Pressed | Held

  /** The current rate is the normal one, or the turbo one once the delay has passed. */
  predicate Valid(cfg: Config, s: State) {
    s.rateNow == cfg.normalRate || (s.rateNow == cfg.turboRate && s.timer >= cfg.delay)
  }

  function Initial(cfg: Config): (s: State)
    ensures Valid(cfg, s) && s.countdown == 0
  {
    State(0, cfg.normalRate, 0)
  }

  /** Turns autorepeat mode off: back to the normal rate, with the hold timer cleared. */
  function ResetAutorepeat(cfg: Config, s: State): (r: State)
    ensures Valid(cfg, r)
    ensures r.timer == 0 && r.rateNow == cfg.normalRate && r.countdown == s.countdown
  {
    s.(timer := 0, rateNow := cfg.normalRate)
  }

  datatype Outcome = Outcome(state: State, fire: bool)

  /** One frame of the machine for a key at the given level, `dt` ticks after the previous frame. */
  function Step(cfg: Config, s: State, level: KeyLevel, dt: nat): (r: Outcome)
    requires Valid(cfg, s)
    ensures Valid(cfg, r.state)
    ensures r.fire ==> r.state.countdown == r.state.rateNow
    ensures level == Released ==> !r.fire && r.state == Initial(cfg)
    ensures level == Pressed ==> r.fire && r.state.timer == 0 && r.state.rateNow == cfg.normalRate
    ensures level == Held ==> r.state.timer == s.timer + dt
    ensures level == Held ==> (r.fire <==> s.countdown <= dt)
    ensures level == Held && !r.fire ==> r.state.countdown == s.countdown - dt
    ensures level == Held && s.rateNow == cfg.turboRate ==> r.state.rateNow == cfg.turboRate
    ensures level == Held && s.timer + dt >= cfg.delay ==> r.state.rateNow == cfg.turboRate
  {
    match level
    case Released =>
      Outcome(ResetAutorepeat(cfg, s).(countdown := 0), false)
    case Pressed =>
      var idle := ResetAutorepeat(cfg, s);
      Outcome(idle.(countdown := idle.rateNow), true)
    case Held =>
      var timer := s.timer + dt;
      var rate := if timer >= cfg.delay then cfg.turboRate else s.rateNow;
      if s.countdown <= dt then Outcome(State(timer, rate, rate), true)
      else Outcome(State(timer, rate, s.countdown - dt), false)
  }

  /** Holds the key through frames of the given lengths; counts the repeats fired. */
  function HoldFor(cfg: Config, s: State, dts: seq<nat>): (r: (State, nat))
    requires Valid(cfg, s)
    ensures Valid(cfg, r.0)
    decreases |dts|
  {
    if dts == [] then (s, 0)
    else
      var o := Step(cfg, s, Held, dts[0]);
      var rest := HoldFor(cfg, o.state, dts[1..]);
      (rest.0, rest.1 + (if o.fire then 1 else 0))
  }

  /** No repeat fires before the countdown has run out. */
  lemma {:induction false} NoRepeatBeforeCountdown(cfg: Config, s: State, dts: seq<nat>)
    requires Valid(cfg, s) && Sum(dts) < s.countdown
    ensures HoldFor(cfg, s, dts).1 == 0
    ensures HoldFor(cfg, s, dts).0.countdown == s.countdown - Sum(dts)
    decreases |dts|
  {
    if dts != [] {
      NoRepeatBeforeCountdown(cfg, Step(cfg, s, Held, dts[0]).state, dts[1..]);
    }
  }

  /** A key held for at least the autorepeat delay is in turbo mode. */
  lemma {:induction false} TurboAfterDelay(cfg: Config, s: State, dts: seq<nat>)
    requires Valid(cfg, s) && dts != []
    requires s.timer + Sum(dts) >= cfg.delay
    ensures HoldFor(cfg, s, dts).0.rateNow == cfg.turboRate
    decreases |dts|
  {
    var o := Step(cfg, s, Held, dts[0]);
    if dts[1..] != [] {
      TurboAfterDelay(cfg, o.state, dts[1..]);
    }
  }

  /** Turbo mode only ever follows a hold of at least the autorepeat delay. */
  lemma {:induction false} TurboOnlyAfterDelay(cfg: Config, s: State, dts: seq<nat>)
    requires Valid(cfg, s) && cfg.turboRate != cfg.normalRate
    requires HoldFor(cfg, s, dts).0.rateNow == cfg.turboRate
    ensures HoldFor(cfg, s, dts).0.timer == s.timer + Sum(dts) >= cfg.delay
    decreases |dts|
  {
    if dts != [] {
      TurboOnlyAfterDelay(cfg, Step(cfg, s, Held, dts[0]).state, dts[1..]);
    }
  }

  /**
   A press followed by a hold shorter than the normal rate moves exactly
   once; releasing and pressing again starts over with one immediate move.
   */
  lemma ShortPressMovesOnce(cfg: Config, s: State, dts: seq<nat>)
    requires Valid(cfg, s) && Sum(dts) < cfg.normalRate
    ensures var p := Step(cfg, s, Pressed, 0);
      p.fire && HoldFor(cfg, p.state, dts).1 == 0
  {
    NoRepeatBeforeCountdown(cfg, Step(cfg, s, Pressed, 0).state, dts);
  }
}

=== FILE: common.dfy ===
/** Optional values, results and sums shared by the model. */
module Common {

  /** An optional value: the model's stand-in for a null pointer or an empty cell. */
  datatype Option<+T> = None | Some(value: T)

  /** The outcome of an operation that can reject its input. */
  datatype Result<+R, +E> = Success(value: R) | Failure(error: E)

  /** Total of a list of tick counts. */
  function Sum(xs: seq<nat>): nat
  {
    if xs == [] then 0 else xs[0] + Sum(xs[1..])
  }
}

=== FILE: observers.dfy ===
/**
 Per-event observer lists. Each event kind has its own list of callbacks,
 appended to on registration and invoked front to back when the event fires.
 Callbacks are opaque handles here; what they do is the host's business.
 */
module Observers {

  datatype Table<E(==, !new), H> = Table(lists: map<E, seq<H>>)

  function Empty<E(==, !new), H>(): (t: Table<E, H>)
    ensures forall e :: Listeners(t, e) == []
  {
    Table(map[])
  }

  /** The callbacks registered for an event, in registration order. */
  function Listeners<E(==, !new), H>(t: Table<E, H>, e: E): seq<H> {
    if e in t.lists then t.lists[e] else []
  }

  /** Appends a callback to the list of one event; every other list is unchanged. */
  function Register<E(==, !new), H>(t: Table<E, H>, e: E, h: H): (r: Table<E, H>)
    ensures Listeners(r, e) == Listeners(t, e) + [h]
    ensures forall e' :: e' != e ==> Listeners(r, e') == Listeners(t, e')
  {
    Table(t.lists[e := Listeners(t, e) + [h]])
  }

  /** The callbacks invoked, in order, when the given events fire one after another. */
  function Notify<E(==, !new), H>(t: Table<E, H>, events: seq<E>): (calls: seq<H>)
    ensures events == [] ==> calls == []
    ensures |events| == 1 ==> calls == Listeners(t, events[0])
    decreases |events|
  {
    if events == [] then []
    else Listeners(t, events[0]) + Notify(t, events[1..])
  }

  lemma {:induction false} NotifyAppend<E(!new), H>(t: Table<E, H>, a: seq<E>, b: seq<E>)
    ensures Notify(t, a + b) == Notify(t, a) + Notify(t, b)
    decreases |a|
  {
    if a != [] {
      assert (a + b)[1..] == a[1..] + b;
      NotifyAppend(t, a[1..], b);
    } else {
      assert a + b == b;
    }
  }

  /** Registering a list of callbacks for one event, one by one. */
  function RegisterAll<E(==, !new), H>(t: Table<E, H>, e: E, hs: seq<H>): Table<E, H>
    decreases |hs|
  {
    if hs == [] then t else RegisterAll(Register(t, e, hs[0]), e, hs[1..])
  }

  /**
   Observers of an event fire in the order they were registered, after
   those registered before them; the lists of other events are untouched.
   */
  lemma {:induction false} RegistrationOrder<E(!new), H>(t: Table<E, H>, e: E, hs: seq<H>)
    ensures Notify(RegisterAll(t, e, hs), [e]) == Listeners(t, e) + hs
    ensures forall e' :: e' != e ==> Listeners(RegisterAll(t, e, hs), e') == Listeners(t, e')
    decreases |hs|
  {
    if hs != [] {
      RegistrationOrder(Register(t, e, hs[0]), e, hs[1..]);
      assert Listeners(t, e) + [hs[0]] + hs[1..] == Listeners(t, e) + hs;
    }
  }
}

=== FILE: playfield.dfy ===
/**
 The playfield grid of the well and the placement logic built on it:
 collision, the ghost row, writing a piece into the grid, full-row detection
 and row removal. Row 0 is the top row; rows grow downwards.
 */
module Playfield {
  import opened Common

  const Rows: nat := 22
  const Cols: nat := 10

  datatype PieceType = I | J | L | O | S | T | Z

  /** A grid cell: empty, or the type of the piece whose mino was locked there. */
  type Cell = Option<PieceType>
  type Row = seq<Cell>

  predicate Shaped(g: seq<Row>) {
    |g| == Rows && forall r :: 0 <= r < |g| ==> |g[r]| == Cols
  }

  /** The 22 x 10 matrix; its dimensions are fixed by its type. */
  type Grid = g: seq<Row> | Shaped(g) witness seq(22, _ => seq(10, _ => None))

  function EmptyRow(): (row: Row)
    ensures |row| == Cols && forall c :: 0 <= c < Cols ==> row[c].None?
  {
    seq(Cols, _ => None)
  }

  function EmptyGrid(): (g: Grid)
    ensures forall r, c :: 0 <= r < Rows && 0 <= c < Cols ==> g[r][c].None?
  {
    seq(Rows, _ => EmptyRow())
  }

  /** A row or column index inside a piece's 4 x 4 bounding box. */
  type BoxIndex = n: nat | n < 4

  /** The position of one mino inside its piece's bounding box. */
  datatype Offset = Offset(row: BoxIndex, col: BoxIndex)

  /** The cells of a piece in its current rotation; a piece always has minos. */
  type Shape = s: seq<Offset> | |s| > 0 witness [Offset(0, 0)]

  datatype Piece = Piece(kind: PieceType, minos: Shape)

  /** The active piece: a piece, its column and row offsets, and its ghost row. */
  datatype ActivePiece = ActivePiece(piece: Piece, x: int, y: nat, ghostY: nat)

  /** A cell is free when it is inside the grid and unoccupied. */
  predicate CellFree(g: Grid, r: int, c: int) {
    0 <= r < Rows && 0 <= c < Cols && g[r][c].None?
  }

  /**
   The collision predicate behind movement, spawning and the ghost: a piece at
   column offset x and row offset y collides when one of its minos lands
   outside the grid or on an occupied cell.
   */
  predicate Collides(g: Grid, p: Piece, x: int, y: nat) {
    exists i :: 0 <= i < |p.minos| && !CellFree(g, y + p.minos[i].row, x + p.minos[i].col)
  }

  /** Does the piece at (x, y) have a mino on cell (r, c)? */
  predicate Covers(p: Piece, x: int, y: nat, r: int, c: int) {
    exists i :: 0 <= i < |p.minos| && y + p.minos[i].row == r && x + p.minos[i].col == c
  }

  /** A non-colliding placement lies entirely inside the grid, so its row offset is a grid row. */
  lemma FreePlacementInBounds(g: Grid, p: Piece, x: int, y: nat)
    requires !Collides(g, p, x, y)
    ensures y < Rows
    ensures forall r, c :: Covers(p, x, y, r, c) ==> CellFree(g, r, c)
  {
    assert CellFree(g, y + p.minos[0].row, x + p.minos[0].col);
  }

  /**
   The mino-by-mino collision test. It answers exactly the collision
   predicate: some mino out of bounds or on an occupied cell.
   */
  method HasCollisionAt(g: Grid, p: Piece, x: int, y: nat) returns (hit: bool)
    ensures hit <==> Collides(g, p, x, y)
  {
    var i := 0;
    while i < |p.minos|
      invariant 0 <= i <= |p.minos|
      invariant forall j :: 0 <= j < i ==> CellFree(g, y + p.minos[j].row, x + p.minos[j].col)
    {
      var r := y + p.minos[i].row;
      var c := x + p.minos[i].col;
      if !(0 <= r < Rows && 0 <= c < Cols) || g[r][c].Some? {
        return true;
      }
      i := i + 1;
    }
    return false;
  }

  /**
   The ghost row: the deepest row offset the piece reaches by falling straight
   down from y, i.e. every row from y to gy is free and the next one collides.
   */
  predicate IsGhostRow(g: Grid, p: Piece, x: int, y: nat, gy: nat) {
    && y <= gy
    && (forall k :: y <= k <= gy ==> !Collides(g, p, x, k))
    && Collides(g, p, x, gy + 1)
  }

  /** The ghost row of a piece is unique. */
  lemma GhostRowUnique(g: Grid, p: Piece, x: int, y: nat, a: nat, b: nat)
    requires IsGhostRow(g, p, x, y, a) && IsGhostRow(g, p, x, y, b)
    ensures a == b
  {
  }

  /** Probes downwards from a free placement until the next row collides. */
  function GhostRow(g: Grid, p: Piece, x: int, y: nat): (gy: nat)
    requires !Collides(g, p, x, y)
    ensures IsGhostRow(g, p, x, y, gy)
    ensures gy < Rows
    decreases Rows - y
  {
    FreePlacementInBounds(g, p, x, y);
    if Collides(g, p, x, y + 1) then y
    else
      FreePlacementInBounds(g, p, x, y + 1);
      GhostRow(g, p, x, y + 1)
  }

  /**
   Falling one row does not move the ghost: from a free row one below, the
   piece comes to rest at the same ghost row.
   */
  lemma GhostStableUnderFall(g: Grid, p: Piece, x: int, y: nat)
    requires !Collides(g, p, x, y) && !Collides(g, p, x, y + 1)
    ensures GhostRow(g, p, x, y + 1) == GhostRow(g, p, x, y)
  {
  }

  /** The grid with the piece's minos written in at (x, y), each tagged with the piece type. */
  function Place(g: Grid, p: Piece, x: int, y: nat): (g': Grid)
    ensures forall r, c :: 0 <= r < Rows && 0 <= c < Cols && Covers(p, x, y, r, c) ==>
      g'[r][c] == Some(p.kind)
    ensures forall r, c :: 0 <= r < Rows && 0 <= c < Cols && !Covers(p, x, y, r, c) ==>
      g'[r][c] == g[r][c]
  {
    seq(Rows, r requires 0 <= r < Rows =>
      seq(Cols, c requires 0 <= c < Cols =>
        if Covers(p, x, y, r, c) then Some(p.kind) else g[r][c]))
  }

  /**
   Locking a non-colliding piece never overwrites a mino: every occupied cell
   keeps its owner, and each cell the piece covers was empty before.
   */
  lemma PlaceKeepsOwnership(g: Grid, p: Piece, x: int, y: nat)
    requires !Collides(g, p, x, y)
    ensures forall r, c :: 0 <= r < Rows && 0 <= c < Cols && g[r][c].Some? ==>
      Place(g, p, x, y)[r][c] == g[r][c]
    ensures forall r, c :: 0 <= r < Rows && 0 <= c < Cols && Covers(p, x, y, r, c) ==>
      g[r][c].None? && Place(g, p, x, y)[r][c] == Some(p.kind)
  {
    FreePlacementInBounds(g, p, x, y);
  }

  predicate RowFull(row: Row) {
    forall c :: 0 <= c < |row| ==> row[c].Some?
  }

  /** The rows to be cleared: those occupied across all columns. */
  function FullRows(g: Grid): (rows: set<nat>)
    ensures forall r :: r in rows ==> r < Rows
  {
    set r: nat | r < Rows && RowFull(g[r])
  }

  /**
   The line-clear scan: collects the indices of all full rows. The result
   holds each full row once, and no other index.
   */
  method CheckLineclear(g: Grid) returns (rows: set<nat>)
    ensures forall r: nat :: r in rows <==> r < Rows && forall c :: 0 <= c < Cols ==> g[r][c].Some?
  {
    rows := {};
    var r := 0;
    while r < Rows
      invariant 0 <= r <= Rows
      invariant forall k: nat :: k in rows <==> k < r && RowFull(g[k])
    {
      var full := true;
      var c := 0;
      while c < Cols
        invariant 0 <= c <= Cols
        invariant full <==> forall j :: 0 <= j < c ==> g[r][j].Some?
      {
        if g[r][c].None? {
          full := false;
        }
        c := c + 1;
      }
      if full {
        rows := rows + {r};
      }
      r := r + 1;
    }
  }

  /** How many of the rows lo .. hi-1 are in `rows`. */
  function CountIn(rows: set<nat>, lo: nat, hi: nat): nat
    decreases hi
  {
    if hi <= lo then 0 else CountIn(rows, lo, hi - 1) + (if hi - 1 in rows then 1 else 0)
  }

  lemma {:induction false} CountInBound(rows: set<nat>, lo: nat, hi: nat)
    ensures CountIn(rows, lo, hi) <= (if hi <= lo then 0 else hi - lo)
    decreases hi
  {
    if hi > lo {
      CountInBound(rows, lo, hi - 1);
    }
  }

  lemma {:induction false} CountInSplit(rows: set<nat>, lo: nat, mid: nat, hi: nat)
    requires lo <= mid <= hi
    ensures CountIn(rows, lo, hi) == CountIn(rows, lo, mid) + CountIn(rows, mid, hi)
    decreases hi
  {
    if hi > mid {
      CountInSplit(rows, lo, mid, hi - 1);
    }
  }

  /** Counting an in-range set over the whole range gives its size. */
  lemma {:induction false} CountInCardinality(rows: set<nat>, n: nat)
    requires forall r :: r in rows ==> r < n
    ensures CountIn(rows, 0, n) == |rows|
    decreases n
  {
    if n > 0 {
      var below := rows - {n - 1};
      CountInCardinality(below, n - 1);
      CountInSameBelow(rows, below, n - 1);
    }
  }

  lemma {:induction false} CountInSameBelow(a: set<nat>, b: set<nat>, n: nat)
    requires forall r :: r < n ==> (r in a <==> r in b)
    ensures CountIn(a, 0, n) == CountIn(b, 0, n)
    decreases n
  {
    if n > 0 {
      CountInSameBelow(a, b, n - 1);
    }
  }

  /** The rows among the first n that are kept, top to bottom. */
  function Survivors(g: seq<Row>, rows: set<nat>, n: nat): (s: seq<Row>)
    requires n <= |g|
    ensures |s| == n - CountIn(rows, 0, n)
    decreases n
  {
    if n == 0 then []
    else Survivors(g, rows, n - 1) + (if n - 1 in rows then [] else [g[n - 1]])
  }

  /** A kept row r sits in the survivor list after the kept rows above it. */
  lemma {:induction false} SurvivorIndex(g: seq<Row>, rows: set<nat>, n: nat, r: nat)
    requires r < n <= |g| && r !in rows
    ensures CountIn(rows, 0, r) <= r
    ensures r - CountIn(rows, 0, r) < |Survivors(g, rows, n)|
    ensures Survivors(g, rows, n)[r - CountIn(rows, 0, r)] == g[r]
    decreases n
  {
    CountInBound(rows, 0, r);
    if r == n - 1 {
      assert |Survivors(g, rows, n - 1)| == r - CountIn(rows, 0, r);
    } else {
      SurvivorIndex(g, rows, n - 1, r);
    }
  }

  lemma {:induction false} SurvivorsShaped(g: Grid, rows: set<nat>, n: nat)
    requires n <= Rows
    ensures forall i :: 0 <= i < |Survivors(g, rows, n)| ==> |Survivors(g, rows, n)[i]| == Cols
    decreases n
  {
    if n > 0 {
      SurvivorsShaped(g, rows, n - 1);
    }
  }

  /** None of the rows kept by a line clear is full. */
  lemma {:induction false} SurvivorsNotFull(g: Grid, n: nat)
    requires n <= Rows
    ensures forall i :: 0 <= i < |Survivors(g, FullRows(g), n)| ==> !RowFull(Survivors(g, FullRows(g), n)[i])
    decreases n
  {
    if n > 0 {
      SurvivorsNotFull(g, n - 1);
      var prev := Survivors(g, FullRows(g), n - 1);
      var s := Survivors(g, FullRows(g), n);
      if n - 1 !in FullRows(g) {
        assert s == prev + [g[n - 1]];
        assert !RowFull(g[n - 1]);
        forall i | 0 <= i < |s|
          ensures !RowFull(s[i])
        {
          if i < |prev| {
            assert s[i] == prev[i];
          }
        }
      } else {
        assert s == prev;
      }
    }
  }

  /**
   Removes the given rows and compacts the grid: the kept rows stay in order
   at the bottom and empty rows fill the top.
   */
  function RemoveRows(g: Grid, rows: set<nat>): (g': Grid)
    requires forall r :: r in rows ==> r < Rows
    ensures |rows| <= Rows
    ensures forall r :: 0 <= r < |rows| ==> g'[r] == EmptyRow()
  {
    var kept := Survivors(g, rows, Rows);
    CountInCardinality(rows, Rows);
    CountInBound(rows, 0, Rows);
    SurvivorsShaped(g, rows, Rows);
    seq(Rows - |kept|, _ => EmptyRow()) + kept
  }

  /**
   Row removal shifts every kept row down by exactly the number of removed
   rows below it, and keeps its contents.
   */
  lemma {:induction false} RemoveRowsShift(g: Grid, rows: set<nat>, r: nat)
    requires forall k :: k in rows ==> k < Rows
    requires r < Rows && r !in rows
    ensures r + CountIn(rows, r + 1, Rows) < Rows
    ensures RemoveRows(g, rows)[r + CountIn(rows, r + 1, Rows)] == g[r]
  {
    CountInCardinality(rows, Rows);
    SurvivorIndex(g, rows, Rows, r);
    CountInSplit(rows, 0, r, Rows);
    CountInSplit(rows, r, r + 1, Rows);
    assert CountIn(rows, r, r + 1) == 0 by {
      assert CountIn(rows, r, r) == 0;
    }
    var below := CountIn(rows, r + 1, Rows);
    var above := CountIn(rows, 0, r);
    assert |rows| == above + below;
    var i := r + below;
    assert i - |rows| == r - above;
  }

  /** After the full rows are removed, no row of the grid is full. */
  lemma {:induction false} NoFullRowsAfterClear(g: Grid)
    ensures FullRows(RemoveRows(g, FullRows(g))) == {}
  {
    var rows := FullRows(g);
    var g' := RemoveRows(g, rows);
    SurvivorsNotFull(g, Rows);
    forall r: nat | r < Rows
      ensures !RowFull(g'[r])
    {
      if r < |rows| {
        assert g'[r][0].None?;
      } else {
        CountInCardinality(rows, Rows);
        assert g'[r] == Survivors(g, rows, Rows)[r - |rows|];
      }
    }
  }
}

=== FILE: singleplay.dfy ===
/**
 The single-player host around the well: the pause toggle in the frame
 update, and the two observer reactions the host wires into the well, one
 that feeds the next queued piece and one that performs a hold swap.

 The piece holder is an optional held type with a flag saying whether a swap
 is allowed this turn; the piece queue is an endless stream of types. Board
 and holder updates whose logic lies elsewhere are parameters of `Update`.
 */
module SinglePlay {
  import opened Common
  import opened Playfield
  import W = Wells
  import AR = Autorepeat

  datatype InputType = GamePause | Other(code: nat)

  /** A logical input event: which input, and whether it went down. */
  datatype InputEvent = InputEvent(kind: InputType, down: bool)

  datatype Holder = Holder(held: Option<PieceType>, swapAllowed: bool)

  /** The upcoming piece types; `taken` of them have been handed out. */
  datatype PieceQueue = PieceQueue(source: nat -> PieceType, taken: nat)

  datatype Session = Session(
    board: W.Well,
    holder: Holder,
    queue: PieceQueue,
    paused: bool,
    shapes: PieceType -> Shape)   // spawn shape of each piece type

  /** What the host's frame update calls, in order. */
  datatype Activity = BoardUpdated | HolderUpdated

  datatype Frame = Frame(session: Session, trace: seq<Activity>, events: seq<W.WellEvent>)

  /** A host reaction to a well event, with the well events its board calls fired. */
  datatype Reaction = Reaction(session: Session, events: seq<W.WellEvent>)

  function Next(q: PieceQueue): (r: (PieceType, PieceQueue))
    ensures r.0 == q.source(q.taken)
    ensures r.1.source == q.source && r.1.taken == q.taken + 1
  {
    (q.source(q.taken), q.(taken := q.taken + 1))
  }

  function SpawnPiece(s: Session, t: PieceType): Piece {
    Piece(t, s.shapes(t))
  }

  /** A new turn allows a swap again; the held piece stays. */
  function OnNextTurn(h: Holder): (r: Holder)
    ensures r.swapAllowed && r.held == h.held
  {
    h.(swapAllowed := true)
  }

  /** Puts a piece into the empty holder; no further swap this turn. */
  function SwapWithEmpty(h: Holder, t: PieceType): (r: Holder)
    requires h.held.None?
    ensures r.held == Some(t) && !r.swapAllowed
  {
    Holder(Some(t), false)
  }

  /** Exchanges the held piece for another; no further swap this turn. */
  function SwapWith(h: Holder, t: PieceType): (r: (PieceType, Holder))
    requires h.held.Some?
    ensures r.0 == h.held.value
    ensures r.1.held == Some(t) && !r.1.swapAllowed
  {
    (h.held.value, Holder(Some(t), false))
  }

  /** Is some pause input among the frame's events pressed down? */
  predicate PausePressed(inputs: seq<InputEvent>)
    decreases |inputs|
  {
    inputs != [] && ((inputs[0].kind == GamePause && inputs[0].down) || PausePressed(inputs[1..]))
  }

  /** The scan for a pause press finds one exactly when some event is a pause going down. */
  lemma {:induction false} PausePressedSpec(inputs: seq<InputEvent>)
    ensures PausePressed(inputs) <==>
      exists i :: 0 <= i < |inputs| && inputs[i].kind == GamePause && inputs[i].down
    decreases |inputs|
  {
    if inputs != [] {
      PausePressedSpec(inputs[1..]);
      if PausePressed(inputs[1..]) {
        var i :| 0 <= i < |inputs[1..]| && inputs[1..][i].kind == GamePause && inputs[1..][i].down;
        assert inputs[i + 1] == inputs[1..][i];
      }
      if exists i :: 0 <= i < |inputs| && inputs[i].kind == GamePause && inputs[i].down {
        var i :| 0 <= i < |inputs| && inputs[i].kind == GamePause && inputs[i].down;
        if i > 0 {
          assert inputs[1..][i - 1] == inputs[i];
        }
      }
    }
  }

  /**
   One frame of the host. A pause press toggles pause once, however many
   pause presses the frame holds, and nothing else happens in that frame.
   While paused nothing happens. Otherwise the board is updated, then the
   holder.
   */
  function Update(s: Session, inputs: seq<InputEvent>,
                  boardUpdate: (W.Well, seq<InputEvent>) -> W.Step,
                  holderUpdate: Holder -> Holder): (r: Frame)
    ensures PausePressed(inputs) ==>
      r.session == s.(paused := !s.paused) && r.trace == [] && r.events == []
    ensures !PausePressed(inputs) && s.paused ==> r == Frame(s, [], [])
    ensures !PausePressed(inputs) && !s.paused ==>
      && r.session == s.(board := boardUpdate(s.board, inputs).well, holder := holderUpdate(s.holder))
      && r.trace == [BoardUpdated, HolderUpdated]
      && r.events == boardUpdate(s.board, inputs).events
  {
    if PausePressed(inputs) then Frame(s.(paused := !s.paused), [], [])
    else if s.paused then Frame(s, [], [])
    else
      var b := boardUpdate(s.board, inputs);
      Frame(s.(board := b.well, holder := holderUpdate(s.holder)), [BoardUpdated, HolderUpdated], b.events)
  }

  /** Frames applied one after another. */
  function RunFrames(s: Session, frames: seq<seq<InputEvent>>,
                     boardUpdate: (W.Well, seq<InputEvent>) -> W.Step,
                     holderUpdate: Holder -> Holder): Session
    decreases |frames|
  {
    if frames == [] then s
    else RunFrames(Update(s, frames[0], boardUpdate, holderUpdate).session, frames[1..], boardUpdate, holderUpdate)
  }

  /** While paused and without a pause press, any number of frames change nothing. */
  lemma {:induction false} PausedFramesInert(s: Session, frames: seq<seq<InputEvent>>,
                                             boardUpdate: (W.Well, seq<InputEvent>) -> W.Step,
                                             holderUpdate: Holder -> Holder)
    requires s.paused
    requires forall k :: 0 <= k < |frames| ==> !PausePressed(frames[k])
    ensures RunFrames(s, frames, boardUpdate, holderUpdate) == s
    decreases |frames|
  {
    if frames != [] {
      PausedFramesInert(s, frames[1..], boardUpdate, holderUpdate);
    }
  }

  /** Two pause presses in separate frames return to the original pause state with nothing updated. */
  lemma PauseTwiceRestores(s: Session, a: seq<InputEvent>, b: seq<InputEvent>,
                           boardUpdate: (W.Well, seq<InputEvent>) -> W.Step,
                           holderUpdate: Holder -> Holder)
    requires PausePressed(a) && PausePressed(b)
    ensures RunFrames(s, [a, b], boardUpdate, holderUpdate) == s
  {
    var s1 := Update(s, a, boardUpdate, holderUpdate).session;
    assert s1 == s.(paused := !s.paused);
    var s2 := Update(s1, b, boardUpdate, holderUpdate).session;
    assert s2 == s;
    assert [a, b][1..] == [b];
    assert [b][1..] == [];
    assert RunFrames(s1, [b], boardUpdate, holderUpdate) == RunFrames(s2, [], boardUpdate, holderUpdate);
  }

  /**
   NEXT_REQUESTED: the next queued type is added to the board, then the
   holder moves on to a new turn.
   */
  function OnNextRequested(s: Session): (r: Reaction)
    requires W.Valid(s.board)
    ensures W.Valid(r.session.board)
    ensures var t := s.queue.source(s.queue.taken);
      r.session.board == W.AddPiece(s.board, SpawnPiece(s, t)).well &&
      r.events == W.AddPiece(s.board, SpawnPiece(s, t)).events
    ensures r.session.queue.taken == s.queue.taken + 1 && r.session.queue.source == s.queue.source
    ensures r.session.holder.swapAllowed && r.session.holder.held == s.holder.held
    ensures r.session.paused == s.paused && r.session.shapes == s.shapes
    ensures forall e :: e in r.events ==> e == W.GameOver
    ensures (W.AwaitingPiece(s.board) &&
             !Collides(s.board.grid, SpawnPiece(s, s.queue.source(s.queue.taken)), W.SpawnColumn, W.SpawnRow)) ==>
      r.session.board.active.Some? && r.session.board.active.value.piece.kind == s.queue.source(s.queue.taken)
  {
    var (t, q) := Next(s.queue);
    var added := W.AddPiece(s.board, SpawnPiece(s, t));
    Reaction(s.(board := added.well, queue := q, holder := OnNextTurn(s.holder)), added.events)
  }

  /**
   HOLD_REQUESTED: when the holder allows a swap, the active piece is
   deleted; an empty holder takes its type, an occupied one hands back the
   held type, which is added to the board. When no swap is allowed nothing
   changes. A swap reads the active piece, so one must be present then.
   */
  function OnHoldRequested(s: Session): (r: Reaction)
    requires W.Valid(s.board)
    requires s.holder.swapAllowed ==> s.board.active.Some?
    ensures W.Valid(r.session.board)
    ensures r.session.queue == s.queue && r.session.paused == s.paused && r.session.shapes == s.shapes
    ensures !s.holder.swapAllowed ==> r == Reaction(s, [])
    ensures forall e :: e in r.events ==> e == W.GameOver
    ensures s.holder.swapAllowed ==>
      && !r.session.holder.swapAllowed
      && r.session.holder.held == Some(s.board.active.value.piece.kind)
      && r.session.board.grid == s.board.grid
    ensures s.holder.swapAllowed && s.holder.held.None? ==>
      r.session.board == W.DeletePiece(s.board).well && r.session.board.active.None? &&
      r.events == []
    ensures s.holder.swapAllowed && s.holder.held.Some? ==>
      var back := SpawnPiece(s, s.holder.held.value);
      var deleted := W.DeletePiece(s.board).well;
      && r.session.board == W.AddPiece(deleted, back).well
      && r.events == W.AddPiece(deleted, back).events
      && (!Collides(s.board.grid, back, W.SpawnColumn, W.SpawnRow) ==>
            r.session.board.active.Some? && r.session.board.active.value.piece == back)
  {
    if !s.holder.swapAllowed then Reaction(s, [])
    else
      var t := s.board.active.value.piece.kind;
      var deleted := W.DeletePiece(s.board);
      if s.holder.held.None? then
        Reaction(s.(board := deleted.well, holder := SwapWithEmpty(s.holder, t)), deleted.events)
      else
        var (out, h) := SwapWith(s.holder, t);
        var added := W.AddPiece(deleted.well, SpawnPiece(s, out));
        Reaction(s.(board := added.well, holder := h), deleted.events + added.events)
  }

  /** A second hold in the same turn is refused. */
  lemma HoldOncePerTurn(s: Session)
    requires W.Valid(s.board) && s.holder.swapAllowed && s.board.active.Some?
    ensures var r := OnHoldRequested(s);
      OnHoldRequested(r.session) == Reaction(r.session, [])
  {
  }

  /**
   Holding, starting a new turn, and holding again swaps the two pieces
   back: the board has the original piece type again and the holder its
   original content.
   */
  lemma HoldTwiceSwapsBack(s: Session)
    requires W.Valid(s.board) && s.holder.swapAllowed && s.board.active.Some?
    requires s.holder.held.Some?
    requires forall t :: !Collides(s.board.grid, SpawnPiece(s, t), W.SpawnColumn, W.SpawnRow)
    ensures var r1 := OnHoldRequested(s).session;
      var r2 := OnHoldRequested(r1.(holder := OnNextTurn(r1.holder))).session;
      && r2.holder.held == s.holder.held
      && r2.board.active.Some?
      && r2.board.active.value.piece == SpawnPiece(s, s.board.active.value.piece.kind)
  {
    var t0 := s.board.active.value.piece.kind;
    var r1 := OnHoldRequested(s).session;
    assert r1.board.active.Some?;
    var s1 := r1.(holder := OnNextTurn(r1.holder));
    assert s1.board.grid == s.board.grid && s1.shapes == s.shapes;
    assert s1.holder.held == Some(t0);
    assert !Collides(s.board.grid, SpawnPiece(s, t0), W.SpawnColumn, W.SpawnRow);
    assert SpawnPiece(s1, t0) == SpawnPiece(s, t0);
  }

  /**
   Hands well events to the host's handlers in order: a next-piece request
   to `OnNextRequested`, a hold request to `OnHoldRequested`. The host has
   no handler for the other events, and a handler whose precondition the
   session does not meet is not called.
   */
  function Deliver(s: Session, events: seq<W.WellEvent>): (r: Session)
    requires W.Valid(s.board)
    ensures W.Valid(r.board)
    ensures r.paused == s.paused && r.shapes == s.shapes
    decreases |events|
  {
    if events == [] then s
    else
      var s1 :=
        match events[0]
        case NextRequested => OnNextRequested(s).session
        case HoldRequested =>
          if s.holder.swapAllowed ==> s.board.active.Some? then OnHoldRequested(s).session else s
        case _ => s;
      Deliver(s1, events[1..])
  }

  /** Delivering only game-over events changes nothing. */
  lemma {:induction false} DeliverIgnoresGameOver(s: Session, events: seq<W.WellEvent>)
    requires W.Valid(s.board)
    requires forall e :: e in events ==> e == W.GameOver
    ensures Deliver(s, events) == s
    decreases |events|
  {
    if events != [] {
      assert events[0] in events;
      assert forall e :: e in events[1..] ==> e in events;
      DeliverIgnoresGameOver(s, events[1..]);
    }
  }

  /**
   A hold swap followed by delivery of the events it fired settles at once:
   the queue does not advance and no second swap is allowed this turn.
   */
  lemma HoldThenDeliver(s: Session)
    requires W.Valid(s.board) && s.holder.swapAllowed && s.board.active.Some?
    ensures var r := OnHoldRequested(s);
      && Deliver(r.session, r.events) == r.session
      && r.session.queue == s.queue
      && !r.session.holder.swapAllowed
  {
    var r := OnHoldRequested(s);
    DeliverIgnoresGameOver(r.session, r.events);
  }

  /**
   The hold key reaches the host: a press while a piece is active performs
   the hold reaction, and any other frame of the key leaves the session as
   it was.
   */
  lemma HoldKeyReachesHost(s: Session, level: AR.KeyLevel)
    requires W.Valid(s.board)
    ensures var d := Deliver(s, W.RequestHold(s.board, level).events);
      && (level == AR.Pressed && s.board.active.Some? ==> d == OnHoldRequested(s).session)
      && (level != AR.Pressed || s.board.active.None? ==> d == s)
  {
    var evs := W.RequestHold(s.board, level).events;
    if level == AR.Pressed && s.board.active.Some? {
      assert evs == [W.HoldRequested];
      assert evs[1..] == [];
    }
  }
}

=== FILE: transition.dfy ===
/**
 A bounded-duration value generator, driven by explicit updates.

 A transition owns a value function from normalized progress t in [0, 1] to a
 value. Everything the C++ class does through side effects is returned here as
 a log of calls: `Eval(t)` for each invocation of the value function and
 `OnEnd` for the completion callback. Time is measured in whole ticks.
 */
module Transitions {
  import opened Common

  /** Normalized progress through a transition. */
  type Fraction = t: real | 0.0 <= t <= 1.0

  /** A transition's duration in ticks; always positive. */
  type Duration = d: nat | d > 0 witness 1

  /** A call the transition makes into its client. */
  datatype Call = Eval(t: Fraction) | OnEnd

  datatype Transition<T> = Transition(
    duration: Duration,
    fn: Fraction -> T,
    timer: nat,      // elapsed ticks, clamped to `duration`
    running: bool,
    value: T)        // the value returned by the latest evaluation

  /** The result of an operation: the new transition and the calls it made. */
  datatype Step<T> = Step(tr: Transition<T>, calls: seq<Call>)

  /** The timer never passes the duration, and a running transition has not yet reached it. */
  predicate Valid<T>(tr: Transition<T>) {
    tr.timer <= tr.duration && (tr.running ==> tr.timer < tr.duration)
  }

  /** The current normalized progress, timer / duration. */
  function Progress<T>(tr: Transition<T>): (t: Fraction)
    requires Valid(tr)
    ensures t == 0.0 <==> tr.timer == 0
    ensures t == 1.0 <==> tr.timer == tr.duration
    ensures t * (tr.duration as real) == tr.timer as real
  {
    var t := tr.timer as real / tr.duration as real;
    assert t * (tr.duration as real) == tr.timer as real;
    t
  }

  /** Number of completion callbacks in a call log. */
  function EndCount(calls: seq<Call>): nat
  {
    if calls == [] then 0
    else EndCount(calls[..|calls| - 1]) + (if calls[|calls| - 1] == OnEnd then 1 else 0)
  }

  lemma EndCountAppend(a: seq<Call>, b: seq<Call>)
    ensures EndCount(a + b) == EndCount(a) + EndCount(b)
    decreases |b|
  {
    if b != [] {
      assert (a + b)[..|a + b| - 1] == a + b[..|b| - 1];
      EndCountAppend(a, b[..|b| - 1]);
    } else {
      assert a + b == a;
    }
  }

  /** Construction: the value function is evaluated at t = 0 at once and the transition runs. */
  function Create<T>(duration: Duration, fn: Fraction -> T): (r: Step<T>)
    ensures Valid(r.tr) && r.tr.running
    ensures r.tr.timer == 0 && r.tr.duration == duration && r.tr.fn == fn
    ensures r.tr.value == fn(0.0)
    ensures r.calls == [Eval(0.0)]
  {
    Step(Transition(duration, fn, 0, true, fn(0.0)), [Eval(0.0)])
  }

  /**
   Advances a transition by `dt` ticks. A running transition evaluates once;
   the update that reaches the full duration evaluates at t = 1, fires the
   completion callback and stops. A stopped transition ignores updates.
   */
  function Update<T>(tr: Transition<T>, dt: nat): (r: Step<T>)
    requires Valid(tr)
    ensures Valid(r.tr)
    ensures r.tr.duration == tr.duration && r.tr.fn == tr.fn
    ensures !tr.running ==> r == Step(tr, [])
    ensures tr.running && tr.timer + dt >= tr.duration ==>
      !r.tr.running && r.tr.timer == tr.duration &&
      r.tr.value == tr.fn(1.0) && r.calls == [Eval(1.0), OnEnd]
    ensures tr.running && tr.timer + dt < tr.duration ==>
      r.tr.running && r.tr.timer == tr.timer + dt &&
      r.tr.value == tr.fn(Progress(r.tr)) && r.calls == [Eval(Progress(r.tr))]
  {
    if !tr.running then Step(tr, [])
    else if tr.timer + dt >= tr.duration then
      Step(tr.(timer := tr.duration, running := false, value := tr.fn(1.0)), [Eval(1.0), OnEnd])
    else
      var next := tr.(timer := tr.timer + dt);
      var t := Progress(next);
      Step(next.(value := tr.fn(t)), [Eval(t)])
  }

  /** Halts the transition without evaluating anything or calling back. */
  function Stop<T>(tr: Transition<T>): (r: Step<T>)
    requires Valid(tr)
    ensures Valid(r.tr)
    ensures !r.tr.running && r.calls == []
    ensures r.tr == tr.(running := false)
  {
    Step(tr.(running := false), [])
  }

  /** Rewinds to t = 0, evaluates there and runs again. */
  function Restart<T>(tr: Transition<T>): (r: Step<T>)
    ensures Valid(r.tr) && r.tr.running && r.tr.timer == 0
    ensures r.tr.duration == tr.duration && r.tr.fn == tr.fn
    ensures r.tr.value == tr.fn(0.0) && r.calls == [Eval(0.0)]
  {
    Step(tr.(timer := 0, running := true, value := tr.fn(0.0)), [Eval(0.0)])
  }

  /** Installs a new value function and evaluates it at once, at the current progress. */
  function ReplaceFn<T>(tr: Transition<T>, fn: Fraction -> T): (r: Step<T>)
    requires Valid(tr)
    ensures Valid(r.tr) && r.tr.fn == fn
    ensures r.tr == tr.(fn := fn, value := fn(Progress(tr)))
    ensures r.tr.value == fn(Progress(tr)) && r.calls == [Eval(Progress(tr))]
  {
    var t := Progress(tr);
    Step(tr.(fn := fn, value := fn(t)), [Eval(t)])
  }

  /** Applies a sequence of updates, collecting every call in order. */
  function Run<T>(tr: Transition<T>, dts: seq<nat>): (r: Step<T>)
    requires Valid(tr)
    ensures Valid(r.tr)
    decreases |dts|
  {
    if dts == [] then Step(tr, [])
    else
      var first := Update(tr, dts[0]);
      var rest := Run(first.tr, dts[1..]);
      Step(rest.tr, first.calls + rest.calls)
  }

  /** Once stopped or completed, no update has any effect. */
  lemma {:induction false} InertAfterStop<T>(tr: Transition<T>, dts: seq<nat>)
    requires Valid(tr) && !tr.running
    ensures Run(tr, dts) == Step(tr, [])
    decreases |dts|
  {
    if dts != [] {
      InertAfterStop(tr, dts[1..]);
    }
  }

  /**
   Over any run of updates, the completion callback fires exactly once if the
   accumulated time reaches the duration and never otherwise; the transition
   has stopped exactly when it has fired.
   */
  lemma {:induction false} EndFiresOnce<T>(tr: Transition<T>, dts: seq<nat>)
    requires Valid(tr) && tr.running
    ensures var r := Run(tr, dts);
      && EndCount(r.calls) == (if tr.timer + Sum(dts) >= tr.duration then 1 else 0)
      && (r.tr.running <==> tr.timer + Sum(dts) < tr.duration)
    decreases |dts|
  {
    if dts != [] {
      var first := Update(tr, dts[0]);
      var rest := Run(first.tr, dts[1..]);
      EndCountAppend(first.calls, rest.calls);
      if tr.timer + dts[0] >= tr.duration {
        InertAfterStop(first.tr, dts[1..]);
        assert EndCount(first.calls) == 1 by {
          assert first.calls[..1] == [Eval(1.0)];
        }
      } else {
        EndFiresOnce(first.tr, dts[1..]);
        assert EndCount(first.calls) == 0 by {
          assert first.calls[..0] == [];
        }
      }
    }
  }

  /** The value function is evaluated at most once per update. */
  lemma {:induction false} OneEvalPerUpdate<T>(tr: Transition<T>, dts: seq<nat>)
    requires Valid(tr)
    ensures |Run(tr, dts).calls| - EndCount(Run(tr, dts).calls) <= |dts|
    decreases |dts|
  {
    if dts != [] {
      var first := Update(tr, dts[0]);
      var rest := Run(first.tr, dts[1..]);
      OneEvalPerUpdate(first.tr, dts[1..]);
      EndCountAppend(first.calls, rest.calls);
      if tr.running && tr.timer + dts[0] >= tr.duration {
        assert EndCount(first.calls) == 1 by {
          assert first.calls[..1] == [Eval(1.0)];
        }
      }
    }
  }

  /** Nearest-integer rounding (halves round up), as `std::round` on non-negative inputs. */
  function Round(x: real): int
  {
    (x + 0.5).Floor
  }

  /** The value function of the unit tests: round(t * 3). */
  function Thirds(t: Fraction): int
  {
    Round(t * 3.0)
  }

  /**
   A three-tick transition stepped one tick at a time yields 0, 1, 2, 3; the
   completion callback fires only on the third step, and a fourth step does
   nothing.
   */
  lemma ThreeStepsScenario()
    ensures var s0 := Create(3, Thirds);
      var s1 := Update(s0.tr, 1);
      var s2 := Update(s1.tr, 1);
      var s3 := Update(s2.tr, 1);
      var s4 := Update(s3.tr, 1);
      && s0.tr.value == 0 && s0.tr.running
      && s1.tr.value == 1 && s1.calls == [Eval(1.0 / 3.0)]
      && s2.tr.value == 2 && s2.calls == [Eval(2.0 / 3.0)]
      && s3.tr.value == 3 && s3.calls == [Eval(1.0), OnEnd] && !s3.tr.running
      && s4.tr.value == 3 && s4.calls == []
  {
    var s0 := Create(3, Thirds);
    var s1 := Update(s0.tr, 1);
    assert Progress(s1.tr) == 1.0 / 3.0;
    var s2 := Update(s1.tr, 1);
    assert Progress(s2.tr) == 2.0 / 3.0;
  }

  /** Stopping skips both the value function and the completion callback; restarting re-evaluates at 0. */
  lemma StopRestartScenario()
    ensures var s0 := Create(3, Thirds);
      var s1 := Stop(s0.tr);
      var s2 := Restart(s1.tr);
      && s1.calls == [] && !s1.tr.running
      && s2.calls == [Eval(0.0)] && s2.tr.value == 0 && s2.tr.running
  {
  }
}

=== FILE: well.dfy ===
/**
 The well: the playfield engine. It owns the grid, the active piece with its
 ghost row, the gravity and autorepeat timers, the rows waiting to be cleared
 with the fade transition that delays their removal, and the observer lists.

 Every operation is a pure function from one well to the next. Observer
 notifications are returned as the list of events fired, in order; the
 callbacks they reach are given by `Notify`.
 */
module Wells {
  import opened Common
  import opened Playfield
  import Ascii
  import AR = Autorepeat
  import Tr = Transitions
  import Observers

  datatype WellEvent = NextRequested | HoldRequested | LineClear | GameOver

  /** An observer callback, as an opaque handle. */
  type Callback = nat

  /** Where a new piece appears: column and row offset of its bounding box. */
  const SpawnColumn: int := 3
  const SpawnRow: nat := 0

  datatype Config = Config(
    gravityRate: nat,                  // ticks between two gravity steps
    keys: AR.Config,                   // autorepeat delay and rates
    clearDuration: Tr.Duration,        // length of the line-clear fade
    clearFade: Tr.Fraction -> nat)     // the fade's alpha value over time

  datatype Well = Well(
    cfg: Config,
    gameover: bool,
    grid: Grid,
    active: Option<ActivePiece>,
    gravityTimer: nat,
    keys: AR.State,
    pending: set<nat>,                 // rows found full, removed when the fade ends
    lineclear: Tr.Transition<nat>,
    observers: Observers.Table<WellEvent, Callback>)

  /** A well after an operation, with the events the operation fired. */
  datatype Step = Step(well: Well, events: seq<WellEvent>)

  /** An active piece sits on free cells and its ghost row is up to date. */
  predicate PlacementOk(g: Grid, a: ActivePiece) {
    !Collides(g, a.piece, a.x, a.y) && a.ghostY == GhostRow(g, a.piece, a.x, a.y)
  }

  /**
   The well's invariant: the active piece never overlaps the grid or leaves
   it, pending rows are the full rows of the grid, there is no active piece
   during a line clear or after game over, the timers are consistent, and
   the line-clear fade has the configured duration and function.
   */
  ghost predicate Valid(w: Well) {
    && (w.active.Some? ==> PlacementOk(w.grid, w.active.value))
    && (w.pending == {} || w.pending == FullRows(w.grid))
    && (w.pending != {} ==> w.active.None? && w.lineclear.running)
    && (w.gameover ==> w.active.None?)
    && Tr.Valid(w.lineclear)
    && w.lineclear.duration == w.cfg.clearDuration
    && (forall t: Tr.Fraction :: w.lineclear.fn(t) == w.cfg.clearFade(t))
    && AR.Valid(w.cfg.keys, w.keys)
  }

  /** Nothing is happening: no piece, no pending clear, no game over. */
  predicate AwaitingPiece(w: Well) {
    !w.gameover && w.active.None? && w.pending == {}
  }

  /** A new well: empty grid, no piece, idle timers, no observers. */
  function Init(cfg: Config): (w: Well)
    ensures Valid(w) && AwaitingPiece(w)
    ensures w.cfg == cfg
    ensures w.grid == EmptyGrid()
    ensures w.gravityTimer == 0 && w.keys == AR.Initial(cfg.keys)
    ensures w.lineclear == Tr.Create(cfg.clearDuration, cfg.clearFade).tr
    ensures forall e :: Observers.Listeners(w.observers, e) == []
  {
    var fade := Tr.Create(cfg.clearDuration, cfg.clearFade).tr;
    Well(cfg, false, EmptyGrid(), None, 0, AR.Initial(cfg.keys), {}, fade, Observers.Empty())
  }

  /**
   Adds a new, player-controllable piece at the spawn position. If the spawn
   position is taken the game is over and no piece is installed. Outside the
   awaiting state the call does nothing. Nothing but the piece and the game
   over flag changes.
   */
  function AddPiece(w: Well, p: Piece): (r: Step)
    requires Valid(w)
    ensures Valid(r.well)
    ensures r.well == w.(active := r.well.active, gameover := r.well.gameover)
    ensures !AwaitingPiece(w) ==> r == Step(w, [])
    ensures AwaitingPiece(w) && !Collides(w.grid, p, SpawnColumn, SpawnRow) ==>
      && r.events == []
      && !r.well.gameover
      && r.well.active.Some?
      && r.well.active.value.piece == p
      && r.well.active.value.x == SpawnColumn && r.well.active.value.y == SpawnRow
      && IsGhostRow(w.grid, p, SpawnColumn, SpawnRow, r.well.active.value.ghostY)
    ensures AwaitingPiece(w) && Collides(w.grid, p, SpawnColumn, SpawnRow) ==>
      r.well.gameover && r.well.active.None? && r.events == [GameOver]
  {
    if !AwaitingPiece(w) then Step(w, [])
    else if Collides(w.grid, p, SpawnColumn, SpawnRow) then Step(w.(gameover := true), [GameOver])
    else
      var gy := GhostRow(w.grid, p, SpawnColumn, SpawnRow);
      Step(w.(active := Some(ActivePiece(p, SpawnColumn, SpawnRow, gy))), [])
  }

  /**
   Deletes the active piece without locking it. No event fires here: the
   well is left awaiting a piece, and the next `Tick` requests one.
   */
  function DeletePiece(w: Well): (r: Step)
    requires Valid(w)
    ensures Valid(r.well)
    ensures r.events == []
    ensures r.well == w.(active := None)
    ensures w.active.Some? ==> AwaitingPiece(r.well)
  {
    Step(w.(active := None), [])
  }

  /** A deleted piece is requested again by the following tick, and by nothing else. */
  lemma DeleteThenTickRequests(w: Well, dt: nat)
    requires Valid(w) && w.active.Some?
    ensures DeletePiece(w).events == []
    ensures Tick(DeletePiece(w).well, dt) == Step(DeletePiece(w).well, [NextRequested])
  {
  }

  /**
   Moves the active piece by dx columns and dy rows when the target
   placement is free, recomputing its ghost; otherwise nothing changes.
   */
  function Shift(w: Well, dx: int, dy: nat): (r: Well)
    requires Valid(w)
    ensures Valid(r)
    ensures r.grid == w.grid && r.active.Some? == w.active.Some?
    ensures w.active.Some? && !Collides(w.grid, w.active.value.piece, w.active.value.x + dx, w.active.value.y + dy) ==>
      var a := w.active.value;
      && r.active.value.piece == a.piece
      && r.active.value.x == a.x + dx && r.active.value.y == a.y + dy
      && r == w.(active := r.active)
    ensures w.active.None? || Collides(w.grid, w.active.value.piece, w.active.value.x + dx, w.active.value.y + dy) ==>
      r == w
  {
    match w.active
    case None => w
    case Some(a) =>
      if Collides(w.grid, a.piece, a.x + dx, a.y + dy) then w
      else
        var gy := GhostRow(w.grid, a.piece, a.x + dx, a.y + dy);
        w.(active := Some(ActivePiece(a.piece, a.x + dx, a.y + dy, gy)))
  }

  /**
   Moves the active piece one row down if that does not collide. The ghost
   row stays where it was.
   */
  function ApplyGravity(w: Well): (r: Well)
    requires Valid(w)
    ensures Valid(r)
    ensures w.active.Some? && !Collides(w.grid, w.active.value.piece, w.active.value.x, w.active.value.y + 1) ==>
      r == w.(active := Some(w.active.value.(y := w.active.value.y + 1)))
    ensures w.active.None? || Collides(w.grid, w.active.value.piece, w.active.value.x, w.active.value.y + 1) ==>
      r == w
  {
    var r := Shift(w, 0, 1);
    if w.active.Some? && !Collides(w.grid, w.active.value.piece, w.active.value.x, w.active.value.y + 1) then
      var a := w.active.value;
      GhostStableUnderFall(w.grid, a.piece, a.x, a.y);
      r
    else r
  }

  /**
   Locks the active piece into the grid and releases it, then checks for
   line clears: full rows start the clear fade, otherwise the next piece is
   requested. Without an active piece the call does nothing.
   */
  function LockAndReleasePiece(w: Well): (r: Step)
    requires Valid(w)
    ensures Valid(r.well)
    ensures r.well.active.None?
    ensures r.well == w.(grid := r.well.grid, active := None, pending := r.well.pending, lineclear := r.well.lineclear)
    ensures w.active.None? ==> r == Step(w, [])
    ensures w.active.Some? ==>
      var a := w.active.value;
      && r.well.grid == Place(w.grid, a.piece, a.x, a.y)
      && r.well.pending == FullRows(r.well.grid)
      && (r.well.pending == {} ==> r.events == [NextRequested] && r.well.lineclear == w.lineclear)
      && (r.well.pending != {} ==> r.events == [] && r.well.lineclear == Tr.Restart(w.lineclear).tr)
    ensures forall row, c :: 0 <= row < Rows && 0 <= c < Cols && w.grid[row][c].Some? ==>
      r.well.grid[row][c] == w.grid[row][c]
  {
    match w.active
    case None => Step(w, [])
    case Some(a) =>
      PlaceKeepsOwnership(w.grid, a.piece, a.x, a.y);
      var g := Place(w.grid, a.piece, a.x, a.y);
      var rows := FullRows(g);
      if rows == {} then Step(w.(grid := g, active := None), [NextRequested])
      else Step(w.(grid := g, active := None, pending := rows, lineclear := Tr.Restart(w.lineclear).tr), [])
  }

  /**
   Drops the active piece straight to its ghost row and locks it there, with
   the same line-clear check and events as any lock.
   */
  function HardDrop(w: Well): (r: Step)
    requires Valid(w)
    ensures Valid(r.well) && r.well.active.None?
    ensures r.well == w.(grid := r.well.grid, active := None, pending := r.well.pending, lineclear := r.well.lineclear)
    ensures w.active.None? ==> r == Step(w, [])
    ensures w.active.Some? ==>
      var a := w.active.value;
      && r.well.grid == Place(w.grid, a.piece, a.x, a.ghostY)
      && r.well.pending == FullRows(r.well.grid)
      && (r.well.pending == {} ==> r.events == [NextRequested] && r.well.lineclear == w.lineclear)
      && (r.well.pending != {} ==> r.events == [] && r.well.lineclear == Tr.Restart(w.lineclear).tr)
  {
    match w.active
    case None => Step(w, [])
    case Some(a) =>
      LockAndReleasePiece(w.(active := Some(a.(y := a.ghostY))))
  }

  datatype Direction = Left | Right | Down

  /** Column and row change of one step in a direction. */
  function StepX(dir: Direction): int {
    match dir
    case Left => -1
    case Right => 1
    case Down => 0
  }

  function StepY(dir: Direction): nat {
    if dir == Down then 1 else 0
  }

  /**
   One frame of a movement key: the autorepeat machine decides whether the
   piece tries to move one step in the key's direction. Input is handled
   only while a piece is active, so it is ignored during a line clear and
   after game over.
   */
  function HandleMoveKey(w: Well, dir: Direction, level: AR.KeyLevel, dt: nat): (r: Well)
    requires Valid(w)
    ensures Valid(r)
    ensures r.grid == w.grid
    ensures w.active.None? ==> r == w
    ensures w.active.Some? ==> var o := AR.Step(w.cfg.keys, w.keys, level, dt);
      && r.keys == o.state
      && (!o.fire ==> r == w.(keys := o.state))
      && (o.fire ==> r == Shift(w.(keys := o.state), StepX(dir), StepY(dir)))
  {
    if w.active.None? then w
    else
      var o := AR.Step(w.cfg.keys, w.keys, level, dt);
      var w1 := w.(keys := o.state);
      if !o.fire then w1
      else Shift(w1, StepX(dir), StepY(dir))
  }

  /** A first press of a movement key moves the piece one step if that placement is free. */
  lemma PressMovesOnce(w: Well, dir: Direction, dt: nat)
    requires Valid(w) && w.active.Some?
    requires var a := w.active.value; !Collides(w.grid, a.piece, a.x + StepX(dir), a.y + StepY(dir))
    ensures var r := HandleMoveKey(w, dir, AR.Pressed, dt);
      && r.active.Some?
      && r.active.value.x == w.active.value.x + StepX(dir)
      && r.active.value.y == w.active.value.y + StepY(dir)
  {
  }

  /**
   One frame of the hold key: its press edge asks the observers to swap the
   active piece; holding or releasing it does nothing, and neither does a
   press without an active piece.
   */
  function RequestHold(w: Well, level: AR.KeyLevel): (r: Step)
    ensures r.well == w
    ensures HoldRequested in r.events <==> level == AR.Pressed && w.active.Some?
    ensures forall e :: e in r.events ==> e == HoldRequested
    ensures |r.events| <= 1
  {
    if level == AR.Pressed && w.active.Some? then Step(w, [HoldRequested]) else Step(w, [])
  }

  /**
   The events of the hold key over consecutive frames of one unchanged well.
   This isolates the key's edge detection: in a real run the host reacts to
   the first request by deleting or replacing the piece, so later frames see
   a different well.
   */
  function RunHoldKey(w: Well, levels: seq<AR.KeyLevel>): seq<WellEvent>
    decreases |levels|
  {
    if levels == [] then [] else RequestHold(w, levels[0]).events + RunHoldKey(w, levels[1..])
  }

  function PressCount(levels: seq<AR.KeyLevel>): nat
    decreases |levels|
  {
    if levels == [] then 0 else (if levels[0] == AR.Pressed then 1 else 0) + PressCount(levels[1..])
  }

  /**
   Holding the hold key over many frames requests one hold per press edge:
   exactly as many hold requests as presses, and nothing else.
   */
  lemma {:induction false} HoldFiresOncePerPress(w: Well, levels: seq<AR.KeyLevel>)
    requires w.active.Some?
    ensures |RunHoldKey(w, levels)| == PressCount(levels)
    ensures forall e :: e in RunHoldKey(w, levels) ==> e == HoldRequested
    decreases |levels|
  {
    if levels != [] {
      HoldFiresOncePerPress(w, levels[1..]);
    }
  }

  /**
   Advances the well's timers by dt ticks.
   - After game over nothing changes.
   - During a line clear only the fade advances; when it completes the
     pending rows are removed and a line clear and a next-piece request fire.
   - A well awaiting a piece requests one.
   - With an active piece the gravity timer accumulates; once it reaches the
     gravity period one period is consumed and the piece falls one row, or
     locks at once if that row collides.
   */
  function Tick(w: Well, dt: nat): (r: Step)
    requires Valid(w)
    ensures Valid(r.well)
    ensures w.gameover ==> r == Step(w, [])
    ensures AwaitingPiece(w) ==> r == Step(w, [NextRequested])
    ensures w.pending != {} ==> r.well.active.None?
    ensures w.pending != {} && !w.gameover && w.lineclear.timer + dt >= w.lineclear.duration ==>
      && r.well == w.(grid := RemoveRows(w.grid, w.pending), pending := {}, lineclear := Tr.Update(w.lineclear, dt).tr)
      && !r.well.lineclear.running
      && r.events == [LineClear, NextRequested]
    ensures w.pending != {} && !w.gameover && w.lineclear.timer + dt < w.lineclear.duration ==>
      && r.well == w.(lineclear := Tr.Update(w.lineclear, dt).tr)
      && r.well.lineclear.timer == w.lineclear.timer + dt
      && r.events == []
    ensures w.active.Some? && w.gravityTimer + dt < w.cfg.gravityRate ==>
      r == Step(w.(gravityTimer := w.gravityTimer + dt), [])
    ensures w.active.Some? && w.gravityTimer + dt >= w.cfg.gravityRate ==>
      var a := w.active.value;
      var timer := w.gravityTimer + dt - w.cfg.gravityRate;
      && (!Collides(w.grid, a.piece, a.x, a.y + 1) ==>
            r == Step(w.(gravityTimer := timer, active := Some(a.(y := a.y + 1))), []))
      && (Collides(w.grid, a.piece, a.x, a.y + 1) ==>
            r == LockAndReleasePiece(w.(gravityTimer := timer)) &&
            r.well.active.None? && r.well.grid == Place(w.grid, a.piece, a.x, a.y))
  {
    if w.gameover then Step(w, [])
    else if w.pending != {} then ClearStep(w, dt)
    else if w.active.None? then Step(w, [NextRequested])
    else GravityStep(w, dt)
  }

  /** The line-clear branch of `Tick`: the fade advances, and its end removes the pending rows. */
  function ClearStep(w: Well, dt: nat): (r: Step)
    requires Valid(w) && !w.gameover && w.pending != {}
    ensures Valid(r.well) && r.well.active.None?
    ensures w.lineclear.timer + dt >= w.lineclear.duration ==>
      && r.well == w.(grid := RemoveRows(w.grid, w.pending), pending := {}, lineclear := Tr.Update(w.lineclear, dt).tr)
      && !r.well.lineclear.running
      && r.events == [LineClear, NextRequested]
    ensures w.lineclear.timer + dt < w.lineclear.duration ==>
      && r.well == w.(lineclear := Tr.Update(w.lineclear, dt).tr)
      && r.well.lineclear.timer == w.lineclear.timer + dt
      && r.events == []
  {
    var u := Tr.Update(w.lineclear, dt);
    if u.tr.running then Step(w.(lineclear := u.tr), [])
    else
      NoFullRowsAfterClear(w.grid);
      Step(w.(grid := RemoveRows(w.grid, w.pending), pending := {}, lineclear := u.tr),
           [LineClear, NextRequested])
  }

  /** The gravity branch of `Tick`: the timer accumulates and each full period moves or locks the piece. */
  function GravityStep(w: Well, dt: nat): (r: Step)
    requires Valid(w) && w.active.Some?
    ensures Valid(r.well)
    ensures w.gravityTimer + dt < w.cfg.gravityRate ==>
      r == Step(w.(gravityTimer := w.gravityTimer + dt), [])
    ensures w.gravityTimer + dt >= w.cfg.gravityRate ==>
      var a := w.active.value;
      var timer := w.gravityTimer + dt - w.cfg.gravityRate;
      && (!Collides(w.grid, a.piece, a.x, a.y + 1) ==>
            r == Step(w.(gravityTimer := timer, active := Some(a.(y := a.y + 1))), []))
      && (Collides(w.grid, a.piece, a.x, a.y + 1) ==>
            r == LockAndReleasePiece(w.(gravityTimer := timer)) &&
            r.well.active.None? && r.well.grid == Place(w.grid, a.piece, a.x, a.y))
  {
    var a := w.active.value;
    var t := w.gravityTimer + dt;
    if t < w.cfg.gravityRate then Step(w.(gravityTimer := t), [])
    else
      var w1 := w.(gravityTimer := t - w.cfg.gravityRate);
      if Collides(w.grid, a.piece, a.x, a.y + 1) then LockAndReleasePiece(w1)
      else Step(ApplyGravity(w1), [])
  }

  /** A line clear leaves no full row behind. */
  lemma ClearLeavesNoFullRow(w: Well, dt: nat)
    requires Valid(w) && !w.gameover && w.pending != {}
    requires w.lineclear.timer + dt >= w.lineclear.duration
    ensures FullRows(Tick(w, dt).well.grid) == {}
  {
    NoFullRowsAfterClear(w.grid);
  }

  /**
   When the fade completes, every row that was not full moves down by the
   number of cleared rows below it and keeps its contents.
   */
  lemma ClearShiftsRows(w: Well, dt: nat, row: nat)
    requires Valid(w) && !w.gameover && w.pending != {}
    requires w.lineclear.timer + dt >= w.lineclear.duration
    requires row < Rows && row !in w.pending
    ensures row + CountIn(w.pending, row + 1, Rows) < Rows
    ensures Tick(w, dt).well.grid[row + CountIn(w.pending, row + 1, Rows)] == w.grid[row]
  {
    RemoveRowsShift(w.grid, w.pending, row);
  }

  /** Applies Tick for each frame length in turn, collecting the events. */
  function RunTicks(w: Well, dts: seq<nat>): (r: Step)
    requires Valid(w)
    ensures Valid(r.well)
    decreases |dts|
  {
    if dts == [] then Step(w, [])
    else
      var first := Tick(w, dts[0]);
      var rest := RunTicks(first.well, dts[1..]);
      Step(rest.well, first.events + rest.events)
  }

  /** Game over is final under time: no sequence of ticks changes the well or fires an event. */
  lemma {:induction false} GameOverIsFinal(w: Well, dts: seq<nat>)
    requires Valid(w) && w.gameover
    ensures RunTicks(w, dts) == Step(w, [])
    decreases |dts|
  {
    if dts != [] {
      GameOverIsFinal(w, dts[1..]);
    }
  }

  /** After game over, movement keys, the hold key and new pieces change nothing and fire nothing. */
  lemma GameOverIgnoresInput(w: Well, dir: Direction, level: AR.KeyLevel, dt: nat, p: Piece)
    requires Valid(w) && w.gameover
    ensures HandleMoveKey(w, dir, level, dt) == w
    ensures RequestHold(w, level) == Step(w, [])
    ensures AddPiece(w, p) == Step(w, [])
  {
  }

  /**
   The active piece's offsets fit the source's byte-wide fields: the column
   offset is within [-3, 10) (an int8_t) and the row and ghost offsets are
   grid rows (uint8_t).
   */
  lemma OffsetsFitBytes(w: Well)
    requires Valid(w) && w.active.Some?
    ensures -3 <= w.active.value.x < Cols
    ensures w.active.value.y <= w.active.value.ghostY < Rows
  {
    var a := w.active.value;
    FreePlacementInBounds(w.grid, a.piece, a.x, a.y);
    assert CellFree(w.grid, a.y + a.piece.minos[0].row, a.x + a.piece.minos[0].col);
  }

  /** Registers an observer for one event; the rest of the well is unchanged. */
  function RegisterObserver(w: Well, e: WellEvent, h: Callback): (r: Well)
    ensures Observers.Listeners(r.observers, e) == Observers.Listeners(w.observers, e) + [h]
    ensures forall e' :: e' != e ==> Observers.Listeners(r.observers, e') == Observers.Listeners(w.observers, e')
    ensures r == w.(observers := r.observers)
  {
    w.(observers := Observers.Register(w.observers, e, h))
  }

  /** The callbacks reached, in order, by the events an operation fired. */
  function Notify(w: Well, events: seq<WellEvent>): (calls: seq<Callback>)
    ensures |events| == 1 ==> calls == Observers.Listeners(w.observers, events[0])
  {
    Observers.Notify(w.observers, events)
  }

  /** The well's text: the grid with the active piece drawn over it. */
  function AsAscii(w: Well): (s: string)
    ensures |s| == Ascii.TextLength
    ensures forall row, c :: 0 <= row < Rows && 0 <= c < Cols && w.active.None? ==>
      Ascii.DecodeCell(s[Ascii.Index(row, c)]) == Some(w.grid[row][c])
  {
    var s := Ascii.AsAscii(w.grid, w.active);
    assert forall row, c :: 0 <= row < Rows && 0 <= c < Cols && w.active.None? ==>
      s[Ascii.Index(row, c)] == Ascii.EncodeCell(w.grid[row][c]);
    assert forall cell: Cell :: Ascii.DecodeCell(Ascii.EncodeCell(cell)) == Some(cell) by {
      forall cell: Cell { Ascii.CellRoundTrip(cell, '.'); }
    }
    s
  }

  /**
   Loads the grid from text, dropping the active piece, any pending clear and
   game over, and resetting the gravity and input timers. Malformed text is
   rejected and leaves the well as it was.
   */
  function FromAscii(w: Well, s: string): (r: Result<Well, Ascii.AsciiError>)
    requires Valid(w)
    ensures r.Success? <==> Ascii.FromAscii(s).Success?
    ensures r.Success? ==>
      && Valid(r.value) && AwaitingPiece(r.value)
      && r.value.grid == Ascii.FromAscii(s).value
      && r.value.observers == w.observers
    ensures r.Success? ==>
      r.value == w.(grid := Ascii.FromAscii(s).value, active := None, pending := {}, gameover := false,
                    gravityTimer := 0, keys := AR.Initial(w.cfg.keys))
    ensures r.Failure? ==> r.error == Ascii.FromAscii(s).error
  {
    match Ascii.FromAscii(s)
    case Failure(e) => Failure(e)
    case Success(g) =>
      Success(w.(grid := g, active := None, pending := {}, gameover := false,
                 gravityTimer := 0, keys := AR.Initial(w.cfg.keys)))
  }

  /** Saving a well without an active piece and loading it back restores the grid. */
  lemma AsciiRoundTrip(w: Well)
    requires Valid(w) && w.active.None?
    ensures FromAscii(w, AsAscii(w)).Success?
    ensures FromAscii(w, AsAscii(w)).value.grid == w.grid
  {
    Ascii.AsciiRoundTrip(w.grid);
  }
}
